=== FILE: README.md ===
# Product catalog: a Dafny model of its decision logic

This project models the parts of the product catalog web application that
make decisions, as pure Dafny functions with proved contracts:

- the **pagination helper** (`paginate` and the three "fetch, then paginate"
  wrappers): page count, clamping of out-of-range pages, the slice served;
- the **in-memory product store** (`ProductStorage`): ids from a counter
  starting at 1000, add / list / get / update / delete over an array, with
  `null`/`false` for a missing id;
- the **payload validators** for create, update and product-id requests,
  which return an ordered list of messages;
- the **remote catalog client** (`productService.ts`): the mapping of the
  remote record shape, the forced rating 0 on create, the partial-update
  merge, and the status-code rules (in four operations, listed below, 404
  gives `null`, `[]` or `false`; every other non-2xx status is an error);
- the **pagination control's arithmetic** (the "Showing X to Y" range, the
  Previous/Next targets and page buttons) and the **stock badge** classifier.

Modules follow the source files: `ProductTypes` (product.types.ts),
`PaginationService`, `ProductStorage`, `ProductValidator`, `ProductService`,
`PaginationControls` (Pagination.tsx) and `ProductCard` (ProductCard.tsx).
`JsString` models `String.prototype.trim`; `Wrappers` holds `Option` and
`Result`; `CatalogProperties` proves properties that span several modules.

How things are represented:

- A class with private state becomes a value. The store is
  `Store(products, nextId)`, and each method maps the store before the call
  to the store after it, together with what the method returns.
- `fetch` is not performed. Each service function receives the response it
  would get back (status plus decoded body). It returns its result together
  with the list of requests it sent. This is how "rejected before any
  request" and "no PUT when the product is missing" are stated.
  `updateProduct` receives two responses, one for its GET and one for its PUT.
- A thrown `Error` is an `Err` of `ServiceError`; `null` is `None`.
- An optional payload field is an `Option`: `None` when absent.
- JavaScript numbers are `real`. `Number.isInteger(x)` is `x.Floor as real == x`.
- Validators work on an `Issue` enumeration internally. `Message` maps each
  issue to the source's exact text, so contracts can say which check fired.

Points where the code behaves differently than one might expect:

- `createProduct`, `updateProduct` and `deleteProduct` call the remote
  catalog. Nothing in productService.ts uses the local store.
- `searchProducts` treats a 404 as an error. A 404 gives an empty result only in
  `getProductById` (`null`), `getProductsByCategory` (`[]`), `deleteProduct`
  (`false`) and `updateProduct` (`null`, from its GET through `getProductById`
  and from its PUT).
- The update validator is not the create validator restricted to the fields
  present. It has no "required" and no white-space check. Category is limited
  to 60 characters only on update (`CategoryCapOnlyOnUpdate`).
- The description message says "less than 500 characters", yet a description
  of exactly 500 is accepted. Brand behaves the same way at 60. The model
  keeps the code's `> 500` and `> 60` tests.

## Model

| member | source | states |
|---|---|---|
| PaginationService.PageCount | src/lib/services/paginationService.ts:14 | the page count is the ceiling of n/limit: enough pages for every item, no empty trailing page, and 0 exactly for an empty list |
| PaginationService.ClampPage | src/lib/services/paginationService.ts:16-17 | the served page is at least 1 and at most the page count when there are pages; in-range requests are kept, low ones become 1, high ones the last page |
| PaginationService.Slice | src/lib/services/paginationService.ts:21 | `slice` cuts its end back to the length, is empty from a start past the end, and never returns more than end - start items |
| PaginationService.Window | src/lib/services/paginationService.ts:19-21 | page p is empty when it starts past the end, and is otherwise the non-empty run of at most `limit` items starting at (p-1)*limit |
| PaginationService.Paginate | src/lib/services/paginationService.ts:8-24 | totalItems is the list length; totalPages is the ceiling of n/limit, 0 exactly for an empty list; at most `limit` items; an empty list yields no items; a non-empty list yields a non-empty slice at the clamped page, even for out-of-range requests |
| PaginationService.PagesUpToIsPrefix | src/lib/services/paginationService.ts:19-21 | pages 1..k concatenated are exactly the first min(k*limit, n) items |
| PaginationService.PagesTile | src/lib/services/paginationService.ts:14-21 | pages 1..totalPages concatenated reproduce the input list in order: no gap, no overlap |
| PaginationService.FullPagesBeforeLast | src/lib/services/paginationService.ts:16-21 | every page before the last holds exactly `limit` items |
| PaginationService.OutOfRangePages | src/lib/services/paginationService.ts:16-17 | a request past the last page gets the last page and a request below 1 gets page 1 |
| PaginationService.PaginateCall | src/lib/services/paginationService.ts:30-32 | a failed fetch fails the paginated call with the same error and requests; a successful one is exactly `paginate` applied to the fetched list |
| PaginationService.AllProductsPaginated | src/lib/services/paginationService.ts:26-33 | sends one listing request; fails exactly when the listing fails, with the HTTP error for a non-2xx status; on success it is `paginate` over the mapped remote list |
| PaginationService.SearchProductsPaginated | src/lib/services/paginationService.ts:35-43 | a blank reference fails and sends nothing; a non-2xx status, 404 included, is the HTTP error; it succeeds exactly for a non-blank reference with a 2xx list, and then is `paginate` over the mapped matches |
| PaginationService.ProductsByCategoryPaginated | src/lib/services/paginationService.ts:45-53 | a blank category fails and sends nothing; 404 is an empty first page, not an error; any other non-2xx status is the HTTP error; a 2xx list succeeds, and every other success is `paginate` over the mapped list |
| ProductTypes.WithId | src/lib/storage/productStorage.ts:13-16 | stamping a draft with an id keeps every other field: removing the id gives the draft back |
| ProductStorage.FindIndex | src/lib/storage/productStorage.ts:33 | `findIndex` gives -1 exactly when no record has the id, and otherwise the first index holding it |
| ProductStorage.Add | src/lib/storage/productStorage.ts:12-19 | the new record carries the current counter as id and the draft's fields; it is appended at the end, earlier records untouched; the counter advances by one; validity is kept and the new id was not in use |
| ProductStorage.All | src/lib/storage/productStorage.ts:22-24 | lists one record per stored record, and an id is listed exactly when looking it up succeeds; the listing order is insertion order (`AddAllInOrder`) |
| ProductStorage.Get | src/lib/storage/productStorage.ts:27-29 | `null` exactly when no record has the id; otherwise the first record with that id |
| ProductStorage.Merge | src/lib/storage/productStorage.ts:36 | the spread keeps the id and takes each field from the patch when present, from the record otherwise |
| ProductStorage.Update | src/lib/storage/productStorage.ts:32-38 | a missing id returns `null` and changes nothing; otherwise the first record with the id, the one `findIndex` picks, is replaced in place by its merge with the patch, all other records and the counter unchanged; validity is kept |
| ProductStorage.Delete | src/lib/storage/productStorage.ts:41-47 | returns true exactly when the id is present; a missing id changes nothing; otherwise exactly the first record with the id, the one `findIndex` picks, is spliced out, the rest keep their order, the counter stays; on a valid store the id is then gone |
| ProductStorage.EmptyStore | src/lib/storage/productStorage.ts:4-8 | a fresh store is empty and valid; its first add returns id 1000 and the next one 1001 |
| ProductStorage.AddThenGet | src/lib/storage/productStorage.ts:12-29 | looking up the id an add returned yields the added record |
| ProductStorage.UpdateThenGet | src/lib/storage/productStorage.ts:27-38 | after updating a present id, looking it up yields the merged record that the update returned, on any store, duplicate ids included, since both pick the first match |
| ProductStorage.DeleteThenGetAndDeleteAgain | src/lib/storage/productStorage.ts:41-47 | after a delete the id is not found, and a second delete returns false and changes nothing |
| ProductStorage.AddAllInOrder | src/lib/storage/productStorage.ts:12-24 | successive adds list their records in call order, with consecutive ids from the counter, after the untouched earlier records |
| ProductStorage.RunPreservesValid | src/lib/storage/productStorage.ts:3-47 | any sequence of add/update/delete keeps ids distinct and within [1000, nextId), and never lowers nextId |
| ProductStorage.NeverReissued | src/lib/storage/productStorage.ts:5-19 | an id once handed out is never handed out again, even after its record was deleted |
| JsString.Trim | src/lib/validators/productValidator.ts:5 | `trim` returns the infix left after removing a white-space-only prefix and suffix, and the result neither starts nor ends with white space |
| JsString.TrimEmptyIffBlank | src/lib/validators/productValidator.ts:5 | `s.trim() === ''` exactly when every character of s is white space |
| ProductService.Missing | src/lib/services/productService.ts:56 | the test "`!s` or `s.trim() === ''`" holds exactly when every character of the argument is white space, the empty string included |
| ProductValidator.CreateTitleIssue | src/lib/validators/productValidator.ts:5-9 | a missing, empty or all-white-space title is "required"; otherwise a raw length outside 3..60 is the range message; otherwise nothing |
| ProductValidator.CreateDescriptionIssue | src/lib/validators/productValidator.ts:11-15 | a missing or empty description is "required"; otherwise more than 500 characters is the length message; exactly 500 passes |
| ProductValidator.CreateCategoryIssue | src/lib/validators/productValidator.ts:17-19 | only a missing or empty category is reported; no length cap on create |
| ProductValidator.CreatePriceIssue | src/lib/validators/productValidator.ts:21-25 | a missing price is "required"; a present price of 0 or less is "greater than 0" |
| ProductValidator.CreateStockIssue | src/lib/validators/productValidator.ts:27-33 | missing stock is "required"; stock of 0 or less is "greater than 0"; otherwise a fractional stock is "must be an integer"; at most one of the three |
| ProductValidator.CreateBrandIssue | src/lib/validators/productValidator.ts:35-39 | a missing or empty brand is "required"; otherwise more than 60 characters is the length message; exactly 60 passes |
| ProductValidator.CreateImagesIssue | src/lib/validators/productValidator.ts:41-45 | missing images are "required"; an empty list is "non-empty array" |
| ProductValidator.CreateChecks | src/lib/validators/productValidator.ts:3-47 | seven checks, one per field, each reporting only about its own field |
| ProductValidator.Messages | src/lib/validators/productValidator.ts:3-47 | the messages returned are the issues' texts, one per issue, in the same order |
| ProductValidator.MessageRoundTrip | src/lib/validators/productValidator.ts:6-92 | every message text the validators push reads back as the one issue it reports, so no two checks share a text |
| ProductValidator.MessagesIdentifyIssues | src/lib/validators/productValidator.ts:3-94 | the list of messages returned determines exactly which checks fired, in which order |
| ProductValidator.CreateIssues | src/lib/validators/productValidator.ts:3-47 | at most one issue per field, in the fixed order title, description, category, price, stock, brand, images; an issue appears exactly when its field's check reports it; none exactly when the payload is acceptable |
| ProductValidator.ValidateCreateProduct | src/lib/validators/productValidator.ts:3-47 | at most seven messages, and none exactly when every field is present and within its limits |
| ProductValidator.CreateExampleRejected | src/lib/validators/productValidator.ts:3-47 | title "ab", price 0, stock 1.5, an empty image list and nothing else yields the seven issues title-range, description, category, price, stock-integer, brand, images, in that order |
| ProductValidator.CollectByField | src/lib/validators/productValidator.ts:3-47 | collecting per-field check results in check order gives a list in strict field order, containing exactly what the checks reported, empty exactly when none reported |
| ProductValidator.UpdateTitleIssue | src/lib/validators/productValidator.ts:52-54 | an absent title passes; a present one must have 3..60 characters, with no white-space check |
| ProductValidator.UpdateDescriptionIssue | src/lib/validators/productValidator.ts:56-58 | an absent description passes; a present one must have at most 500 characters |
| ProductValidator.UpdateCategoryIssue | src/lib/validators/productValidator.ts:60-62 | an absent category passes; a present one must have at most 60 characters |
| ProductValidator.UpdatePriceIssue | src/lib/validators/productValidator.ts:64-66 | an absent price passes; a present one must be positive |
| ProductValidator.UpdateStockIssue | src/lib/validators/productValidator.ts:68-74 | an absent stock passes; a present one reports "greater than 0" for 0 or less, otherwise "must be an integer" when fractional |
| ProductValidator.UpdateBrandIssue | src/lib/validators/productValidator.ts:75-77 | an absent brand passes; a present one must have at most 60 characters |
| ProductValidator.UpdateImagesIssue | src/lib/validators/productValidator.ts:78-80 | absent images pass; a present list must be non-empty |
| ProductValidator.UpdateChecks | src/lib/validators/productValidator.ts:49-82 | seven checks, one per field, each reporting only about its own field |
| ProductValidator.UpdateIssues | src/lib/validators/productValidator.ts:49-82 | at most one issue per field, in field order, each exactly when its present field breaks its rule; none exactly when every present field obeys its rule |
| ProductValidator.ValidateUpdateProduct | src/lib/validators/productValidator.ts:49-82 | at most seven messages, none exactly for an acceptable partial update |
| ProductValidator.EmptyUpdateAccepted | src/lib/validators/productValidator.ts:49-82 | an update with no fields validates to the empty list |
| ProductValidator.CategoryCapOnlyOnUpdate | src/lib/validators/productValidator.ts:17-62 | a payload the create validator accepts is accepted as an update exactly when its category has at most 60 characters |
| ProductValidator.ValidateProductId | src/lib/validators/productValidator.ts:84-94 | at most one message: "valid number" when the parse fails, "greater than 0" for a parse of 0 or less, none exactly for a positive parse |
| ProductService.FromRemote | src/lib/services/productService.ts:17-29 | the mapping copies all nine fields: converting back gives the remote record unchanged |
| ProductService.RemoteShapeRoundTrip | src/lib/services/productService.ts:17-29 | the two shapes correspond one to one: mapping a product's remote spelling gives the product back |
| ProductService.GetAllProducts | src/lib/services/productService.ts:31-39 | one listing request; any non-2xx status is an error; a 2xx list response succeeds, and success is always every remote record mapped |
| ProductService.GetProductById | src/lib/services/productService.ts:41-52 | 404 gives `null`; any other non-2xx status is an error; a 2xx product body gives the mapped product |
| ProductService.SearchProducts | src/lib/services/productService.ts:55-68 | a blank reference is an error and sends nothing; otherwise one search request; every non-2xx status, 404 included, is an error; a 2xx list response succeeds with every match mapped |
| ProductService.GetProductsByCategory | src/lib/services/productService.ts:71-88 | a blank category is an error and sends nothing; otherwise 404 is an empty list and any other non-2xx status an error; a 2xx list response succeeds with every record mapped |
| ProductService.CreateProduct | src/lib/services/productService.ts:91-116 | one POST carrying the payload; a non-2xx status is an error; the returned product has rating 0 and every other field from the response |
| ProductService.ApplyUpdate | src/lib/services/productService.ts:139-148 | each updatable field takes the payload's value when defined and the current value otherwise; id and rating stay the current product's |
| ProductService.UpdateProduct | src/lib/services/productService.ts:118-149 | a missing current product gives `null` without a PUT, and a failed GET fails without one; after the PUT, 404 gives `null`, any other non-2xx an error, and success the current product with the update applied |
| ProductService.DeleteProduct | src/lib/services/productService.ts:151-166 | 404 gives false, 2xx gives true, anything else is an error |
| ProductService.GetAllCategories | src/lib/services/productService.ts:169-180 | one request; any non-2xx status is an error; success returns the names as received |
| PaginationControls.PageButtons | src/app/components/Pagination.tsx:66-72 | the page buttons are exactly 1..totalPages, strictly increasing |
| PaginationControls.Render | src/app/components/Pagination.tsx:20-84 | nothing shows when there is at most one page; otherwise the range ends at `currentPage*itemsPerPage` or at the last item, whichever comes first; Previous targets page 1 from page 1 or below and the page before otherwise; Next targets the last page from the last page or beyond and the page after otherwise; each is disabled exactly on its boundary page; for an in-range page exactly its own button is current |
| ProductCard.GetStockStatus | src/app/components/ProductCard.tsx:17-21 | exactly 0 is "Out of Stock" (red), any other count below 10 is "Low Stock (n)" (yellow), 10 or more is "In Stock (n)" (green); the three cases are exclusive and cover every count |
| ProductCard.NegativeStockIsLow | src/app/components/ProductCard.tsx:19 | a negative count is classified as low stock |
| CatalogProperties.ShowingRangeMatchesPage | src/app/components/Pagination.tsx:20-21 | for an in-range page, "Showing X to Y" names exactly the items the pagination helper served, 1-based |
| CatalogProperties.EchoedPagePastTheEnd | src/app/api/products/route.ts:21-31 | when the requested page is past the last, the helper serves the last page while the control shows "Showing (page-1)*limit+1 to n of n", a range starting past the last item; both buttons stay enabled, Previous steps back one page (still past the end unless the request was one past it) and Next jumps to the last page |
| CatalogProperties.RemoteMergeIsStoreMerge | src/lib/services/productService.ts:139-148 | the remote update's field-wise merge equals the local store's spread with the same payload and no rating |
| CatalogProperties.ValidatedStockIsNeverOut | src/lib/services/productService.ts:104-115 | when the create payload validated and the remote echo carries the posted stock, `createProduct` succeeds and the product it returns never classifies as "Out of Stock" on its card |
| CatalogProperties.TwoProductSession | src/lib/storage/productStorage.ts:12-24 | in a fresh store two adds get ids 1000 and 1001; listing returns both in insertion order; a one-item page shows the first of two pages |

## Left out

- Network I/O, URL building and JSON decoding in the remote client. Responses are parameters. A body of the wrong shape becomes `MalformedBody`, where JavaScript would read `undefined` fields or throw a `TypeError`.
- The text of thrown errors. Errors are modelled by kind (HTTP status and operation, empty argument, malformed body).
- The exported singleton `productStorage`, mutation in place, and the sharing of record objects: `getAllProducts` copies only the array, and `addProduct`, `getProductById` and `updateProduct` return the stored object itself. The store is a value threaded through calls, so aliasing cannot be observed. No source file calls the store.
- `null` as a payload field value, and an explicit `undefined` in an object spread. A field is either present or absent.
- The `Array.isArray` test on `images`. In the model a present `images` is always a list.
- JavaScript `parseInt`. `ValidateProductId` takes it as a function parameter.
- Number-to-string conversion in the stock badge. `GetStockStatus` takes it as a function parameter.
- Floating point. Prices, ratings and stock are reals, so NaN, infinities and rounding are not modelled.
- UTF-16 string lengths. Strings are sequences of code points.
- PaginationService.Paginate: requires an integer `page` and `limit >= 1`. The route rejects a smaller limit, but a NaN page or limit from `parseInt` is not modelled.
- Route handlers, response envelopes (`apiResponse.ts`) and every React component apart from the expressions above. They are HTTP glue and presentation.
- CatalogProperties.ValidatedStockIsNeverOut: assumes the remote catalog echoes the posted stock back. What the remote service returns is not part of this model.
- Payload fields of the wrong JSON type. Every field is assumed to carry its declared type. The validators accept any JSON, though. A numeric `title` makes `title.trim()` throw on create but passes the update check, because comparing `undefined` with 3 or 60 is false. A numeric `description` passes the create check. A string stock such as `"5"` gets "Stock must be an integer".
- The default arguments `page = 1` and `limit = 20` of the three paginated fetches. The only call among them, from the list route, passes both values. The search and category wrappers are not called anywhere in the source files.

=== FILE: catalog_properties.dfy ===
/**
 * Properties that tie the catalog's pieces together: the pagination control
 * against the pagination helper, the remote update's merge against the
 * local store's, the stock badge against the create validator, and a
 * worked session with the local store.
 */
module CatalogProperties {
  import opened Wrappers
  import opened ProductTypes
  import PaginationService
  import PaginationControls
  import ProductStorage
  import ProductService
  import ProductValidator
  import ProductCard

  /**
   * For a page in range, "Showing X to Y" names exactly the items the
   * pagination helper served for that page: they are items X..Y, 1-based.
   */
  lemma ShowingRangeMatchesPage<T>(items: seq<T>, page: int, limit: int)
    requires limit >= 1
    requires 1 <= page <= PaginationService.Paginate(items, page, limit).totalPages
    requires PaginationService.Paginate(items, page, limit).totalPages > 1
    ensures var pg := PaginationService.Paginate(items, page, limit);
      var view := PaginationControls.Render(page, pg.totalPages, pg.totalItems, limit);
      && view.Some?
      && 1 <= view.value.startItem <= view.value.endItem <= |items|
      && pg.items == items[view.value.startItem - 1 .. view.value.endItem]
  {
    var pg := PaginationService.Paginate(items, page, limit);
    var start := PaginationService.PageStart(page, limit);
    assert start == (page - 1) * limit;
    assert PaginationService.ClampPage(page, pg.totalPages) == page;
  }

  /**
   * The list endpoint echoes the requested page, not the one served: asked
   * for a page past the last, the helper serves the last page while the
   * control's "Showing X to Y" starts past the last item. Both buttons stay
   * enabled: Previous steps back one page, still past the end unless the
   * request was just one past it, and Next jumps back to the last page.
   */
  lemma EchoedPagePastTheEnd<T>(items: seq<T>, page: int, limit: int)
    requires limit >= 1
    requires var tp := PaginationService.Paginate(items, page, limit).totalPages;
      1 < tp < page
    ensures var pg := PaginationService.Paginate(items, page, limit);
      var view := PaginationControls.Render(page, pg.totalPages, pg.totalItems, limit);
      && pg == PaginationService.Paginate(items, pg.totalPages, limit)
      && view.Some? && view.value.startItem > |items| >= view.value.endItem
      && view.value.startItem == PaginationService.PageStart(page, limit) + 1
      && view.value.endItem == |items|
      && !view.value.previousDisabled && view.value.previousTarget == page - 1
      && (view.value.previousTarget > pg.totalPages <==> page > pg.totalPages + 1)
      && !view.value.nextDisabled && view.value.nextTarget == pg.totalPages
  {
    var pg := PaginationService.Paginate(items, page, limit);
    PaginationService.OutOfRangePages(items, page, limit);
    PaginationService.MulMonotone(pg.totalPages, page - 1, limit);
  }

  /** The update payload as a store patch: the same fields, and no rating. */
  function AsPatch(data: UpdateProductDto): ProductPatch {
    ProductPatch(data.title, data.description, data.category, data.price, None,
                 data.stock, data.brand, data.images)
  }

  /**
   * The remote update's field-by-field merge is the local store's object
   * spread with the same payload.
   */
  lemma RemoteMergeIsStoreMerge(current: Product, data: UpdateProductDto)
    ensures ProductService.ApplyUpdate(current, data) == ProductStorage.Merge(current, AsPatch(data))
  {
  }

  /**
   * A product created from a payload that passed validation never shows as
   * out of stock on its card, provided the remote catalog echoes the posted
   * stock back (the card shows the echo's stock, not the payload's).
   */
  lemma ValidatedStockIsNeverOut(d: CreateProductDto, resp: ProductService.Response, show: real -> string)
    requires ProductValidator.ValidateCreateProduct(d) == []
    requires resp.Ok() && resp.body.ProductBody?
    requires d.stock == Some(resp.body.product.stock)
    ensures ProductService.CreateProduct(d, resp).result.Ok?
    ensures var created := ProductService.CreateProduct(d, resp).result.value;
      && created.stock == d.stock.value
      && ProductCard.GetStockStatus(created.stock, show).level != ProductCard.OutOfStock
  {
  }

  /**
   * A session with a fresh store: two adds get ids 1000 and 1001, listing
   * returns both in insertion order, and a page of one item shows the first
   * of two pages.
   */
  lemma TwoProductSession(pen: NewProduct, other: NewProduct)
    ensures
      var first := ProductStorage.Add(ProductStorage.Empty, pen);
      var second := ProductStorage.Add(first.store, other);
      var listed := ProductStorage.All(second.store);
      && first.product.id == 1000
      && second.product.id == 1001
      && listed == [WithId(pen, 1000), WithId(other, 1001)]
      && PaginationService.Paginate(listed, 1, 1) == PaginationService.Page([WithId(pen, 1000)], 2, 2)
  {
    var first := ProductStorage.Add(ProductStorage.Empty, pen);
    var second := ProductStorage.Add(first.store, other);
    var listed := ProductStorage.All(second.store);
    assert listed[0..1] == [WithId(pen, 1000)];
  }
}

=== FILE: js_string.dfy ===
/**
 * The one piece of JavaScript's string library the catalog's logic depends
 * on: `String.prototype.trim`, used to reject blank titles, search
 * references and category names. Lengths are counted in code points, where
 * JavaScript counts UTF-16 code units.
 */
module JsString {

  /** ECMAScript WhiteSpace and LineTerminator code points: what `trim` strips. */
  predicate IsJsSpace(c: char) {
    || c == '\t' || c == '\n' || c == '\U{000B}' || c == '\U{000C}' || c == '\r'
    || c == ' ' || c == '\U{00A0}' || c == '\U{1680}'
    || ('\U{2000}' <= c <= '\U{200A}')
    || c == '\U{2028}' || c == '\U{2029}' || c == '\U{202F}' || c == '\U{205F}'
    || c == '\U{3000}' || c == '\U{FEFF}'
  }

  /** Every character of s is white space (vacuously so for ""). */
  ghost predicate Blank(s: string) {
    forall k :: 0 <= k < |s| ==> IsJsSpace(s[k])
  }

  /** How many white-space characters s starts with. */
  function LeadingSpace(s: string): (n: nat)
    ensures n <= |s|
    ensures forall k :: 0 <= k < n ==> IsJsSpace(s[k])
    ensures n < |s| ==> !IsJsSpace(s[n])
  {
    if |s| == 0 || !IsJsSpace(s[0]) then 0 else 1 + LeadingSpace(s[1..])
  }

  /** How many white-space characters s ends with. */
  function TrailingSpace(s: string): (n: nat)
    ensures n <= |s|
    ensures forall k :: |s| - n <= k < |s| ==> IsJsSpace(s[k])
    ensures n < |s| ==> !IsJsSpace(s[|s| - n - 1])
  {
    if |s| == 0 || !IsJsSpace(s[|s| - 1]) then 0 else 1 + TrailingSpace(s[..|s| - 1])
  }

  /** `s.trim()`: s without its leading and trailing white space. */
  function Trim(s: string): (r: string)
    ensures |r| <= |s|
    ensures exists i :: 0 <= i <= |s| - |r| && r == s[i..i + |r|] && Blank(s[..i]) && Blank(s[i + |r|..])
    ensures |r| > 0 ==> !IsJsSpace(r[0]) && !IsJsSpace(r[|r| - 1])
  {
    var i := LeadingSpace(s);
    var t := s[i..];
    var r := t[..|t| - TrailingSpace(t)];
    assert r == s[i..i + |r|];
    assert Blank(s[..i]) by {
      forall k | 0 <= k < i ensures IsJsSpace(s[..i][k]) { assert s[..i][k] == s[k]; }
    }
    assert Blank(s[i + |r|..]) by {
      var rest := s[i + |r|..];
      forall k | 0 <= k < |rest| ensures IsJsSpace(rest[k]) {
        assert rest[k] == t[|r| + k];
      }
    }
    r
  }

  /** `s.trim() === ''` exactly when s is nothing but white space. */
  lemma TrimEmptyIffBlank(s: string)
    ensures Trim(s) == "" <==> Blank(s)
  {
    var n := LeadingSpace(s);
    if n < |s| {
      var t := s[n..];
      assert !IsJsSpace(t[0]);
      assert TrailingSpace(t) < |t|;
    }
  }
}

=== FILE: numbers.dfy ===
/** `Math.min` and `Math.max` on integers, shared by the pagination helper and control. */
module Numbers {
  function Min(a: int, b: int): int { if a <= b then a else b }
  function Max(a: int, b: int): int { if a >= b then a else b }
}

=== FILE: pagination_controls.dfy ===
/**
 * The arithmetic of the pagination control in
 * src/app/components/Pagination.tsx: the "Showing X to Y of N results"
 * range, whether the control shows at all, the Previous/Next targets and
 * their disabled states, and the list of page buttons. The markup is not
 * modelled.
 */
module PaginationControls {
  import opened Wrappers
  import opened Numbers

  /** What the control shows when it shows anything. */
  datatype View = View(
    startItem: int,
    endItem: int,
    previousTarget: int,
    previousDisabled: bool,
    nextTarget: int,
    nextDisabled: bool,
    pageButtons: seq<int>)

  /** `Array.from({ length: totalPages }, (_, i) => i + 1)`. */
  function PageButtons(totalPages: nat): (pages: seq<int>)
    ensures |pages| == totalPages
    ensures forall n :: n in pages <==> 1 <= n <= totalPages
    ensures forall i, j :: 0 <= i < j < |pages| ==> pages[i] < pages[j]
  {
    var pages := seq(totalPages, i requires 0 <= i < totalPages => i + 1);
    forall n | 1 <= n <= totalPages
      ensures n in pages
    {
      assert pages[n - 1] == n;
    }
    pages
  }

  /**
   * The control for `currentPage` of `totalPages`: nothing when there is at
   * most one page; otherwise the shown range ends at the page's last slot
   * or at the last item, whichever comes first, so it never passes the last item;
   * Previous never targets a page below 1 and Next never one past the last,
   * each is disabled exactly on its boundary page, and the page buttons run
   * 1..totalPages with exactly the current page marked when it is in range.
   */
  function Render(currentPage: int, totalPages: int, totalItems: int, itemsPerPage: int)
    : (r: Option<View>)
    ensures r.None? <==> totalPages <= 1
    ensures r.Some? ==>
      && r.value.endItem <= totalItems
      && (currentPage * itemsPerPage >= totalItems ==> r.value.endItem == totalItems)
      && (currentPage * itemsPerPage < totalItems ==> r.value.endItem == currentPage * itemsPerPage)
      && r.value.previousTarget >= 1
      && r.value.nextTarget <= totalPages
      && (r.value.previousDisabled <==> currentPage == 1)
      && (r.value.nextDisabled <==> currentPage == totalPages)
      && r.value.pageButtons == PageButtons(totalPages)
    ensures r.Some? ==>
      && (currentPage <= 1 ==> r.value.previousTarget == 1)
      && (currentPage > 1 ==> r.value.previousTarget == currentPage - 1)
      && (currentPage >= totalPages ==> r.value.nextTarget == totalPages)
      && (currentPage < totalPages ==> r.value.nextTarget == currentPage + 1)
    ensures r.Some? && 1 <= currentPage <= totalPages ==>
      forall i :: 0 <= i < |r.value.pageButtons| ==>
        (r.value.pageButtons[i] == currentPage <==> i == currentPage - 1)
  {
    var startItem := (currentPage - 1) * itemsPerPage + 1;
    var endItem := Min(currentPage * itemsPerPage, totalItems);
    if totalPages <= 1 then None
    else Some(View(
      startItem,
      endItem,
      Max(1, currentPage - 1),
      currentPage == 1,
      Min(totalPages, currentPage + 1),
      currentPage == totalPages,
      PageButtons(totalPages)))
  }
}

=== FILE: pagination_service.dfy ===
/**
 * The pagination helper of src/lib/services/paginationService.ts: `paginate`
 * and the three wrappers that fetch a product list and paginate it.
 */
module PaginationService {
  import opened Wrappers
  import opened ProductTypes
  import ProductService
  import opened JsString
  import opened Numbers

  /** What `paginate` returns: one window of the list plus the list's totals. */
  datatype Page<T> = Page(items: seq<T>, totalPages: nat, totalItems: nat)

  /** `Math.ceil(totalItems / limit)` for a positive `limit`. */
  function PageCount(totalItems: nat, limit: int): (pages: nat)
    requires limit >= 1
    ensures pages * limit >= totalItems
    ensures pages > 0 ==> (pages - 1) * limit < totalItems
    ensures pages == 0 <==> totalItems == 0
  {
    (totalItems + limit - 1) / limit
  }

  /** The page `paginate` actually serves for the requested `page`. */
  function ClampPage(page: int, totalPages: nat): (p: int)
    ensures p >= 1
    ensures totalPages > 0 ==> p <= totalPages
    ensures 1 <= page && (page <= totalPages || totalPages == 0) ==> p == page
    ensures page < 1 ==> p == 1
    ensures totalPages > 0 && page > totalPages ==> p == totalPages
  {
    var p := if page < 1 then 1 else page;
    if p > totalPages && totalPages > 0 then totalPages else p
  }

  /**
   * `Array.prototype.slice(start, end)` for non-negative arguments: indices
   * past the end are cut back to the length, and an empty range gives `[]`.
   */
  function Slice<T>(s: seq<T>, start: nat, end: nat): (r: seq<T>)
    ensures start <= |s| && start <= end ==> r == s[start..Min(end, |s|)]
    ensures start >= |s| ==> r == []
    ensures |r| <= if end >= start then end - start else 0
  {
    var lo := Min(start, |s|);
    var hi := Min(end, |s|);
    if hi <= lo then [] else s[lo..hi]
  }

  /** Index of the first item of 1-based page `p`: `(p - 1) * limit`. */
  function PageStart(p: int, limit: int): (start: nat)
    requires p >= 1 && limit >= 1
    ensures start + limit == p * limit
  {
    MulMonotone(0, p - 1, limit);
    (p - 1) * limit
  }

  /**
   * The items of 1-based page `p`: `items.slice((p - 1) * limit, p * limit)`.
   * A page that starts past the end is empty; any other page is non-empty
   * and holds at most `limit` items.
   */
  function Window<T>(items: seq<T>, p: int, limit: int): (w: seq<T>)
    requires limit >= 1 && p >= 1
    ensures PageStart(p, limit) >= |items| ==> w == []
    ensures PageStart(p, limit) < |items| ==>
      && w == items[PageStart(p, limit) .. Min(PageStart(p, limit) + limit, |items|)]
      && 0 < |w| <= limit
  {
    var start := PageStart(p, limit);
    Slice(items, start, start + limit)
  }

  /**
   * `paginate(items, page, limit)`. The HTTP layer rejects `limit < 1`
   * before calling it, so `limit >= 1` is the caller's obligation here.
   */
  function Paginate<T>(items: seq<T>, page: int, limit: int): (r: Page<T>)
    requires limit >= 1
    ensures r.totalItems == |items|
    ensures r.totalPages * limit >= |items|
    ensures r.totalPages > 0 ==> (r.totalPages - 1) * limit < |items|
    ensures r.totalPages == 0 <==> |items| == 0
    ensures |r.items| <= limit
    ensures |items| == 0 ==> r.items == []
    ensures |items| > 0 ==>
      var p := ClampPage(page, r.totalPages);
      && 1 <= p <= r.totalPages
      && PageStart(p, limit) < |items|
      && r.items == items[PageStart(p, limit) .. Min(PageStart(p, limit) + limit, |items|)]
      && |r.items| > 0
  {
    var totalItems := |items|;
    var totalPages := PageCount(totalItems, limit);
    var p := ClampPage(page, totalPages);
    if totalItems > 0 then
      MulMonotone(p - 1, totalPages - 1, limit);
      Page(Window(items, p, limit), totalPages, totalItems)
    else
      Page(Window(items, p, limit), totalPages, totalItems)
  }

  /** What the paginated fetches yield: the page, or the fetch's error, plus the requests sent. */
  datatype PagedCall = PagedCall(result: Result<Page<Product>, ProductService.ServiceError>,
                                 sent: seq<ProductService.Request>)

  /** Paginates a fetched list; a failed fetch fails the same way. */
  function PaginateCall(fetched: ProductService.Call<seq<Product>>, page: int, limit: int): (r: PagedCall)
    requires limit >= 1
    ensures r.sent == fetched.sent
    ensures r.result.Err? <==> fetched.result.Err?
    ensures r.result.Err? ==> r.result.error == fetched.result.error
    ensures r.result.Ok? ==>
      fetched.result.Ok? && r.result.value == Paginate(fetched.result.value, page, limit)
  {
    match fetched.result
    case Err(e) => PagedCall(Err(e), fetched.sent)
    case Ok(products) => PagedCall(Ok(Paginate(products, page, limit)), fetched.sent)
  }

  /** `getAllProductsPaginated`: the whole remote catalog, one page of it. */
  function AllProductsPaginated(resp: ProductService.Response, page: int, limit: int): (r: PagedCall)
    requires limit >= 1
    ensures r.sent == [ProductService.GetAll]
    ensures r.result.Err? <==> !resp.Ok() || !resp.body.ListBody?
    ensures !resp.Ok() ==> r.result == Err(ProductService.HttpError(resp.status, ProductService.Listing))
    ensures r.result.Ok? ==>
      r.result.value == Paginate(ProductService.FromRemoteAll(resp.body.products), page, limit)
  {
    PaginateCall(ProductService.GetAllProducts(resp), page, limit)
  }

  /** `searchProductsPaginated`: a blank reference fails before any request. */
  function SearchProductsPaginated(reference: string, resp: ProductService.Response, page: int, limit: int)
    : (r: PagedCall)
    requires limit >= 1
    ensures Blank(reference) <==> r.sent == []
    ensures Blank(reference) ==> r.result == Err(ProductService.EmptyArgument(ProductService.Searching))
    ensures !Blank(reference) && !resp.Ok() ==>
      r.result == Err(ProductService.HttpError(resp.status, ProductService.Searching))
    ensures r.result.Ok? <==> !Blank(reference) && resp.Ok() && resp.body.ListBody?
    ensures r.result.Ok? ==>
      r.result.value == Paginate(ProductService.FromRemoteAll(resp.body.products), page, limit)
  {
    PaginateCall(ProductService.SearchProducts(reference, resp), page, limit)
  }

  /** `getProductsByCategoryPaginated`: an unknown category is an empty listing, not an error. */
  function ProductsByCategoryPaginated(category: string, resp: ProductService.Response, page: int, limit: int)
    : (r: PagedCall)
    requires limit >= 1
    ensures Blank(category) <==> r.sent == []
    ensures Blank(category) ==> r.result == Err(ProductService.EmptyArgument(ProductService.Browsing))
    ensures !Blank(category) && resp.status == ProductService.NotFound ==>
      r.result == Ok(Page([], 0, 0))
    ensures !Blank(category) && resp.status != ProductService.NotFound && !resp.Ok() ==>
      r.result == Err(ProductService.HttpError(resp.status, ProductService.Browsing))
    ensures !Blank(category) && resp.status != ProductService.NotFound && r.result.Ok? ==>
      resp.Ok() && resp.body.ListBody?
      && r.result.value == Paginate(ProductService.FromRemoteAll(resp.body.products), page, limit)
    ensures !Blank(category) && resp.status != ProductService.NotFound && resp.Ok() && resp.body.ListBody? ==>
      r.result.Ok?
  {
    PaginateCall(ProductService.GetProductsByCategory(category, resp), page, limit)
  }

  /** Pages 1..k of `items` at `limit` items per page, concatenated in order. */
  function PagesUpTo<T>(items: seq<T>, limit: int, k: nat): seq<T>
    requires limit >= 1
  {
    if k == 0 then [] else PagesUpTo(items, limit, k - 1) + Paginate(items, k, limit).items
  }

  /** The first k pages are exactly the first `min(k * limit, n)` items. */
  lemma {:induction false} PagesUpToIsPrefix<T>(items: seq<T>, limit: int, k: nat)
    requires limit >= 1
    requires k <= PageCount(|items|, limit)
    ensures PagesUpTo(items, limit, k) == items[..Min(k * limit, |items|)]
  {
    if k > 0 {
      PagesUpToIsPrefix(items, limit, k - 1);
      var start, end := InRangePage(items, limit, k);
      AppendSlices(items, start, end);
    }
  }

  /** Page k, when it exists, is served as-is and starts where page k - 1 ends. */
  lemma InRangePage<T>(items: seq<T>, limit: int, k: nat) returns (start: nat, end: nat)
    requires limit >= 1
    requires 1 <= k <= PageCount(|items|, limit)
    ensures start == Min((k - 1) * limit, |items|) < |items|
    ensures end == Min(k * limit, |items|) && start <= end
    ensures Paginate(items, k, limit).items == items[start..end]
  {
    var tp := PageCount(|items|, limit);
    MulMonotone(k - 1, tp - 1, limit);
    assert ClampPage(k, tp) == k;
    start := PageStart(k, limit);
    end := Min(k * limit, |items|);
  }

  lemma AppendSlices<T>(s: seq<T>, a: nat, b: nat)
    requires a <= b <= |s|
    ensures s[..a] + s[a..b] == s[..b]
  {
  }

  /**
   * The pages tile the list: concatenating pages 1..totalPages gives back
   * the whole list, in order, with no item missing and none repeated.
   */
  lemma PagesTile<T>(items: seq<T>, limit: int)
    requires limit >= 1
    ensures PagesUpTo(items, limit, Paginate(items, 1, limit).totalPages) == items
  {
    var tp := PageCount(|items|, limit);
    PagesUpToIsPrefix(items, limit, tp);
    assert Min(tp * limit, |items|) == |items|;
  }

  /** Every page before the last one is full. */
  lemma FullPagesBeforeLast<T>(items: seq<T>, page: int, limit: int)
    requires limit >= 1
    requires 1 <= page < Paginate(items, page, limit).totalPages
    ensures |Paginate(items, page, limit).items| == limit
  {
    var tp := PageCount(|items|, limit);
    MulMonotone(page, tp - 1, limit);
    assert PageStart(page, limit) + limit == page * limit <= (tp - 1) * limit < |items|;
  }

  /**
   * Requests past the last page are served the last page, and requests
   * below page 1 are served page 1.
   */
  lemma OutOfRangePages<T>(items: seq<T>, page: int, limit: int)
    requires limit >= 1
    ensures var tp := Paginate(items, page, limit).totalPages;
      tp > 0 && page >= tp ==> Paginate(items, page, limit) == Paginate(items, tp, limit)
    ensures page <= 1 ==> Paginate(items, page, limit) == Paginate(items, 1, limit)
  {
  }

  lemma MulMonotone(a: int, b: int, c: int)
    requires a <= b && c >= 0
    ensures a * c <= b * c
  {
    assert b * c - a * c == (b - a) * c;
  }
}

=== FILE: product_card.dfy ===
/** `getStockStatus` of src/app/components/ProductCard.tsx. The card's markup is not modelled. */
module ProductCard {

  datatype StockLevel = OutOfStock | LowStock | InStock

  /** The label and Tailwind colour class the card shows for a stock count. */
  datatype StockStatus = StockStatus(level: StockLevel, text: string, color: string)

  /**
   * Classifies a stock count: exactly 0 is out of stock, anything else below
   * 10 (negative counts included) is low, and the rest is in stock.
   * `show` is JavaScript's number-to-string conversion used by the template
   * literal.
   */
  function GetStockStatus(stock: real, show: real -> string): (r: StockStatus)
    ensures r.level == OutOfStock <==> stock == 0.0
    ensures r.level == LowStock <==> stock != 0.0 && stock < 10.0
    ensures r.level == InStock <==> stock >= 10.0
    ensures r.level == OutOfStock ==> r.text == "Out of Stock" && r.color == "text-red-400"
    ensures r.level == LowStock ==>
      r.text == "Low Stock (" + show(stock) + ")" && r.color == "text-yellow-400"
    ensures r.level == InStock ==>
      r.text == "In Stock (" + show(stock) + ")" && r.color == "text-green-400"
  {
    if stock == 0.0 then StockStatus(OutOfStock, "Out of Stock", "text-red-400")
    else if stock < 10.0 then StockStatus(LowStock, "Low Stock (" + show(stock) + ")", "text-yellow-400")
    else StockStatus(InStock, "In Stock (" + show(stock) + ")", "text-green-400")
  }

  /** A negative count, which the classifier never guards against, reads as low stock. */
  lemma NegativeStockIsLow(stock: real, show: real -> string)
    requires stock < 0.0
    ensures GetStockStatus(stock, show).level == LowStock
  {
  }
}

=== FILE: product_service.dfy ===
/**
 * The remote catalog client of src/lib/services/productService.ts. No
 * request is really sent: each operation receives the HTTP response(s) it
 * would get back and returns, together with its result, the requests it
 * issued, so that "nothing was sent" can be stated. A thrown `Error` is an
 * `Err`; a `null` is `None`.
 */
module ProductService {
  import opened Wrappers
  import opened ProductTypes
  import opened JsString

  /** `DUMMYJSONProduct`: a product as the remote catalog spells it. */
  datatype RemoteProduct = RemoteProduct(
    id: int,
    title: string,
    description: string,
    category: string,
    price: real,
    rating: real,
    stock: real,
    brand: string,
    images: seq<string>)

  /** `transformDUMMYJSON`: the remote record in the catalog's own shape. */
  function FromRemote(rp: RemoteProduct): (p: Product)
    ensures ToRemote(p) == rp
  {
    Product(rp.id, rp.title, rp.description, rp.category, rp.price, rp.rating,
            rp.stock, rp.brand, rp.images)
  }

  /** The catalog product spelled as the remote catalog would. */
  function ToRemote(p: Product): (rp: RemoteProduct) {
    RemoteProduct(p.id, p.title, p.description, p.category, p.price, p.rating,
                  p.stock, p.brand, p.images)
  }

  /** No field is lost or altered: the two shapes are in one-to-one correspondence. */
  lemma RemoteShapeRoundTrip(p: Product, rp: RemoteProduct)
    ensures FromRemote(ToRemote(p)) == p
    ensures FromRemote(rp) == p <==> rp == ToRemote(p)
  {
  }

  /** A decoded response body, as far as the catalog reads it. */
  datatype Body =
    | ProductBody(product: RemoteProduct)
    | ListBody(products: seq<RemoteProduct>)
    | NamesBody(names: seq<string>)
    | OtherBody

  /** What `fetch` resolves to: a status code and the decoded body. */
  datatype Response = Response(status: int, body: Body) {
    /** `response.ok`: a 2xx status. */
    predicate Ok() {
      200 <= status <= 299
    }
  }

  const NotFound: int := 404

  /** The request each operation issues. */
  datatype Request =
    | GetAll
    | GetOne(id: int)
    | Search(reference: string)
    | ByCategory(category: string)
    | Post(data: CreateProductDto)
    | Put(id: int, update: UpdateProductDto)
    | Remove(id: int)
    | GetCategories

  /** The operation an error is about. */
  datatype Operation =
    | Listing | Fetching | Searching | Browsing
    | Creating | Updating | Deleting | ListingCategories

  /** What the service throws. */
  datatype ServiceError =
    | HttpError(status: int, operation: Operation)
    | EmptyArgument(operation: Operation)
    | MalformedBody(operation: Operation)

  /** An operation's outcome together with the requests it sent, in order. */
  datatype Call<+T> = Call(result: Result<T, ServiceError>, sent: seq<Request>)

  function FromRemoteAll(rps: seq<RemoteProduct>): (ps: seq<Product>)
    ensures |ps| == |rps|
    ensures forall k :: 0 <= k < |rps| ==> ps[k] == FromRemote(rps[k])
  {
    seq(|rps|, k requires 0 <= k < |rps| => FromRemote(rps[k]))
  }

  /** A list body, read as products; anything else is malformed. */
  function ReadList(resp: Response, op: Operation): Result<seq<Product>, ServiceError> {
    if resp.body.ListBody? then Ok(FromRemoteAll(resp.body.products)) else Err(MalformedBody(op))
  }

  /** `getAllProducts`: any non-2xx status is an error. */
  function GetAllProducts(resp: Response): (r: Call<seq<Product>>)
    ensures r.sent == [GetAll]
    ensures !resp.Ok() <==> r.result == Err(HttpError(resp.status, Listing))
    ensures r.result.Ok? ==>
      resp.Ok() && resp.body.ListBody? && r.result.value == FromRemoteAll(resp.body.products)
    ensures resp.Ok() && resp.body.ListBody? ==> r.result == Ok(FromRemoteAll(resp.body.products))
  {
    if !resp.Ok() then Call(Err(HttpError(resp.status, Listing)), [GetAll])
    else Call(ReadList(resp, Listing), [GetAll])
  }

  /** `getProductById`: 404 is "no such product"; any other non-2xx status is an error. */
  function GetProductById(id: int, resp: Response): (r: Call<Option<Product>>)
    ensures r.sent == [GetOne(id)]
    ensures r.result == Ok(None) <==> resp.status == NotFound
    ensures r.result == Err(HttpError(resp.status, Fetching)) <==>
      resp.status != NotFound && !resp.Ok()
    ensures r.result.Ok? && r.result.value.Some? <==> resp.Ok() && resp.body.ProductBody?
    ensures r.result.Ok? && r.result.value.Some? ==>
      ToRemote(r.result.value.value) == resp.body.product
  {
    if resp.status == NotFound then Call(Ok(None), [GetOne(id)])
    else if !resp.Ok() then Call(Err(HttpError(resp.status, Fetching)), [GetOne(id)])
    else if resp.body.ProductBody? then Call(Ok(Some(FromRemote(resp.body.product))), [GetOne(id)])
    else Call(Err(MalformedBody(Fetching)), [GetOne(id)])
  }

  /** `!s || s.trim() === ''`: the argument is missing in substance. */
  predicate Missing(s: string)
    ensures Missing(s) <==> Blank(s)
  {
    TrimEmptyIffBlank(s);
    |s| == 0 || Trim(s) == ""
  }

  /**
   * `searchProducts`: a blank reference is rejected before any request;
   * then every non-2xx status, 404 included, is an error.
   */
  function SearchProducts(reference: string, resp: Response): (r: Call<seq<Product>>)
    ensures Blank(reference) <==> r.sent == []
    ensures Blank(reference) ==> r.result == Err(EmptyArgument(Searching))
    ensures !Blank(reference) ==> r.sent == [Search(reference)]
    ensures !Blank(reference) && !resp.Ok() <==> r.result == Err(HttpError(resp.status, Searching))
    ensures r.result.Ok? ==>
      resp.Ok() && resp.body.ListBody? && r.result.value == FromRemoteAll(resp.body.products)
    ensures !Blank(reference) && resp.Ok() && resp.body.ListBody? ==>
      r.result == Ok(FromRemoteAll(resp.body.products))
  {
    if Missing(reference) then Call(Err(EmptyArgument(Searching)), [])
    else if !resp.Ok() then Call(Err(HttpError(resp.status, Searching)), [Search(reference)])
    else Call(ReadList(resp, Searching), [Search(reference)])
  }

  /**
   * `getProductsByCategory`: a blank category is rejected before any
   * request; 404 is an empty category; any other non-2xx status is an error.
   */
  function GetProductsByCategory(category: string, resp: Response): (r: Call<seq<Product>>)
    ensures Blank(category) <==> r.sent == []
    ensures Blank(category) ==> r.result == Err(EmptyArgument(Browsing))
    ensures !Blank(category) ==> r.sent == [ByCategory(category)]
    ensures !Blank(category) && resp.status == NotFound ==> r.result == Ok([])
    ensures !Blank(category) && resp.status != NotFound && !resp.Ok() <==>
      r.result == Err(HttpError(resp.status, Browsing))
    ensures r.result.Ok? && resp.status != NotFound ==>
      resp.Ok() && resp.body.ListBody? && r.result.value == FromRemoteAll(resp.body.products)
    ensures !Blank(category) && resp.status != NotFound && resp.Ok() && resp.body.ListBody? ==>
      r.result == Ok(FromRemoteAll(resp.body.products))
  {
    if Missing(category) then Call(Err(EmptyArgument(Browsing)), [])
    else if resp.status == NotFound then Call(Ok([]), [ByCategory(category)])
    else if !resp.Ok() then Call(Err(HttpError(resp.status, Browsing)), [ByCategory(category)])
    else Call(ReadList(resp, Browsing), [ByCategory(category)])
  }

  /**
   * `createProduct`: posts the payload; the product returned copies the
   * remote echo's fields except the rating, which is always 0.
   */
  function CreateProduct(data: CreateProductDto, resp: Response): (r: Call<Product>)
    ensures r.sent == [Post(data)]
    ensures !resp.Ok() <==> r.result == Err(HttpError(resp.status, Creating))
    ensures r.result.Ok? <==> resp.Ok() && resp.body.ProductBody?
    ensures r.result.Ok? ==>
      && r.result.value.rating == 0.0
      && ToRemote(r.result.value) == resp.body.product.(rating := 0.0)
  {
    if !resp.Ok() then Call(Err(HttpError(resp.status, Creating)), [Post(data)])
    else if resp.body.ProductBody? then
      var created := resp.body.product;
      Call(Ok(Product(created.id, created.title, created.description, created.category,
                      created.price, 0.0, created.stock, created.brand, created.images)),
           [Post(data)])
    else Call(Err(MalformedBody(Creating)), [Post(data)])
  }

  /**
   * The product `updateProduct` returns: each updatable field takes the
   * update's value when it carries one and keeps the current value otherwise;
   * id and rating always stay the current product's.
   */
  function ApplyUpdate(current: Product, data: UpdateProductDto): (p: Product)
    ensures p.id == current.id && p.rating == current.rating
    ensures p.title == (if data.title.Some? then data.title.value else current.title)
    ensures p.description == (if data.description.Some? then data.description.value else current.description)
    ensures p.category == (if data.category.Some? then data.category.value else current.category)
    ensures p.price == (if data.price.Some? then data.price.value else current.price)
    ensures p.stock == (if data.stock.Some? then data.stock.value else current.stock)
    ensures p.brand == (if data.brand.Some? then data.brand.value else current.brand)
    ensures p.images == (if data.images.Some? then data.images.value else current.images)
  {
    current.(
      title := data.title.GetOr(current.title),
      description := data.description.GetOr(current.description),
      category := data.category.GetOr(current.category),
      price := data.price.GetOr(current.price),
      stock := data.stock.GetOr(current.stock),
      brand := data.brand.GetOr(current.brand),
      images := data.images.GetOr(current.images))
  }

  /**
   * `updateProduct`: fetches the current product first (`current` is the
   * answer to that GET) and gives up with `None`, without a PUT, when there is
   * none; then PUTs the update (`answer` is the answer to the PUT): 404 is
   * `None`, any other non-2xx status is an error, and success yields the
   * current product with the update applied, whatever the PUT's body says.
   */
  function UpdateProduct(id: int, data: UpdateProductDto, current: Response, answer: Response)
    : (r: Call<Option<Product>>)
    ensures current.status == NotFound ==> r == Call(Ok(None), [GetOne(id)])
    ensures current.status != NotFound && !current.Ok() ==>
      r == Call(Err(HttpError(current.status, Fetching)), [GetOne(id)])
    ensures current.Ok() && !current.body.ProductBody? ==>
      r == Call(Err(MalformedBody(Fetching)), [GetOne(id)])
    ensures current.Ok() && current.body.ProductBody? ==>
      && r.sent == [GetOne(id), Put(id, data)]
      && (r.result == Ok(None) <==> answer.status == NotFound)
      && (r.result == Err(HttpError(answer.status, Updating)) <==> answer.status != NotFound && !answer.Ok())
      && (answer.Ok() ==> r.result == Ok(Some(ApplyUpdate(FromRemote(current.body.product), data))))
  {
    var fetched := GetProductById(id, current);
    match fetched.result
    case Err(e) => Call(Err(e), [GetOne(id)])
    case Ok(None) => Call(Ok(None), [GetOne(id)])
    case Ok(Some(p)) =>
      var sent := [GetOne(id), Put(id, data)];
      if answer.status == NotFound then Call(Ok(None), sent)
      else if !answer.Ok() then Call(Err(HttpError(answer.status, Updating)), sent)
      else Call(Ok(Some(ApplyUpdate(p, data))), sent)
  }

  /** `deleteProduct`: 404 is `false`, 2xx is `true`, anything else is an error. */
  function DeleteProduct(id: int, resp: Response): (r: Call<bool>)
    ensures r.sent == [Remove(id)]
    ensures r.result == Ok(false) <==> resp.status == NotFound
    ensures r.result == Ok(true) <==> resp.Ok()
    ensures r.result == Err(HttpError(resp.status, Deleting)) <==> resp.status != NotFound && !resp.Ok()
    ensures r.result.Ok? || r.result == Err(HttpError(resp.status, Deleting))
  {
    if resp.status == NotFound then Call(Ok(false), [Remove(id)])
    else if !resp.Ok() then Call(Err(HttpError(resp.status, Deleting)), [Remove(id)])
    else Call(Ok(true), [Remove(id)])
  }

  /** `getAllCategories`: the list of names, or an error for any non-2xx status. */
  function GetAllCategories(resp: Response): (r: Call<seq<string>>)
    ensures r.sent == [GetCategories]
    ensures !resp.Ok() <==> r.result == Err(HttpError(resp.status, ListingCategories))
    ensures r.result.Ok? <==> resp.Ok() && resp.body.NamesBody?
    ensures r.result.Ok? ==> r.result.value == resp.body.names
  {
    if !resp.Ok() then Call(Err(HttpError(resp.status, ListingCategories)), [GetCategories])
    else if resp.body.NamesBody? then Call(Ok(resp.body.names), [GetCategories])
    else Call(Err(MalformedBody(ListingCategories)), [GetCategories])
  }
}

=== FILE: product_storage.dfy ===
/**
 * The in-memory product store of src/lib/storage/productStorage.ts.
 * The class's two private fields become an immutable `Store` value, and
 * every method becomes a function from the store before the call to the
 * store after it together with the method's return value.
 */
module ProductStorage {
  import opened Wrappers
  import opened ProductTypes

  /** The value `nextId` starts at, so the first id handed out. */
  const FirstId: int := 1000

  /** The private state of a `ProductStorage` instance. */
  datatype Store = Store(products: seq<Product>, nextId: int)

  /** A freshly constructed store. */
  const Empty: Store := Store([], FirstId)

  /**
   * What the class maintains: every id was handed out by this store, so lies
   * in [FirstId, nextId), and no two records share an id.
   */
  ghost predicate Valid(s: Store) {
    && s.nextId >= FirstId
    && (forall i :: 0 <= i < |s.products| ==> FirstId <= s.products[i].id < s.nextId)
    && (forall i, j :: 0 <= i < j < |s.products| ==> s.products[i].id != s.products[j].id)
  }

  /** Some record of `ps` carries `id`. */
  ghost predicate HasId(ps: seq<Product>, id: int) {
    exists i :: 0 <= i < |ps| && ps[i].id == id
  }

  /** `findIndex(p => p.id === id)`, with `None` for the JavaScript -1. */
  function FindIndex(ps: seq<Product>, id: int): (r: Option<nat>)
    ensures r.None? <==> !HasId(ps, id)
    ensures r.Some? ==>
      && r.value < |ps|
      && ps[r.value].id == id
      && forall j :: 0 <= j < r.value ==> ps[j].id != id
  {
    if |ps| == 0 then None
    else if ps[0].id == id then Some(0)
    else match FindIndex(ps[1..], id)
      case None => None
      case Some(k) => Some(k + 1)
  }

  /** The result of `addProduct`: the new store and the record it returned. */
  datatype Added = Added(store: Store, product: Product)

  /**
   * `addProduct`: stamps the draft with the current `nextId`, advances the
   * counter and appends the record at the end.
   */
  function Add(s: Store, draft: NewProduct): (r: Added)
    ensures r.product.id == s.nextId
    ensures WithoutId(r.product) == draft
    ensures r.store.products == s.products + [r.product]
    ensures r.store.nextId == s.nextId + 1
    ensures Valid(s) ==> Valid(r.store) && !HasId(s.products, r.product.id)
  {
    var p := WithId(draft, s.nextId);
    Added(Store(s.products + [p], s.nextId + 1), p)
  }

  /**
   * `getAllProducts`: a copy of the array (the records themselves are
   * shared), in insertion order (see
   * `AddAllInOrder`); it lists one record per stored record, and an id is
   * listed exactly when a lookup by it succeeds.
   */
  function All(s: Store): (r: seq<Product>)
    ensures |r| == |s.products|
    ensures forall id :: Get(s, id).Some? <==> exists i :: 0 <= i < |r| && r[i].id == id
  {
    s.products
  }

  /** `getProductById`: the first record carrying `id`, or `None` for `null`. */
  function Get(s: Store, id: int): (r: Option<Product>)
    ensures r.None? <==> !HasId(s.products, id)
    ensures r.Some? ==>
      && r.value.id == id
      && (exists i :: 0 <= i < |s.products| && s.products[i] == r.value
            && forall j :: 0 <= j < i ==> s.products[j].id != id)
  {
    match FindIndex(s.products, id)
    case None => None
    case Some(i) => Some(s.products[i])
  }

  /** `{ ...p, ...patch }`: the fields present in the patch replace p's. */
  function Merge(p: Product, patch: ProductPatch): (q: Product)
    ensures q.id == p.id
    ensures q.title == patch.title.GetOr(p.title)
    ensures q.description == patch.description.GetOr(p.description)
    ensures q.category == patch.category.GetOr(p.category)
    ensures q.price == patch.price.GetOr(p.price)
    ensures q.rating == patch.rating.GetOr(p.rating)
    ensures q.stock == patch.stock.GetOr(p.stock)
    ensures q.brand == patch.brand.GetOr(p.brand)
    ensures q.images == patch.images.GetOr(p.images)
  {
    p.(title := patch.title.GetOr(p.title),
       description := patch.description.GetOr(p.description),
       category := patch.category.GetOr(p.category),
       price := patch.price.GetOr(p.price),
       rating := patch.rating.GetOr(p.rating),
       stock := patch.stock.GetOr(p.stock),
       brand := patch.brand.GetOr(p.brand),
       images := patch.images.GetOr(p.images))
  }

  /** The result of `updateProduct`: the new store and the record returned, `None` for `null`. */
  datatype Updated = Updated(store: Store, product: Option<Product>)

  /**
   * `updateProduct`: merges the patch into the first record carrying `id`,
   * in place; a missing id leaves the store as it was.
   */
  function Update(s: Store, id: int, patch: ProductPatch): (r: Updated)
    ensures r.product.None? <==> !HasId(s.products, id)
    ensures r.product.None? ==> r.store == s
    ensures r.store.nextId == s.nextId
    ensures |r.store.products| == |s.products|
    ensures r.product.Some? ==>
      exists i :: 0 <= i < |s.products| && s.products[i].id == id
        && (forall j :: 0 <= j < i ==> s.products[j].id != id)
        && r.product.value == Merge(s.products[i], patch)
        && r.store.products == s.products[i := r.product.value]
    ensures Valid(s) ==> Valid(r.store)
  {
    match FindIndex(s.products, id)
    case None => Updated(s, None)
    case Some(i) =>
      var q := Merge(s.products[i], patch);
      var r := Updated(Store(s.products[i := q], s.nextId), Some(q));
      assert Valid(s) ==> Valid(r.store) by {
        if Valid(s) {
          forall j | 0 <= j < |r.store.products|
            ensures FirstId <= r.store.products[j].id < r.store.nextId
          {
            assert r.store.products[j].id == s.products[j].id;
          }
        }
      }
      r
  }

  /** The result of `deleteProduct`: the new store and whether a record went. */
  datatype Deleted = Deleted(store: Store, removed: bool)

  /**
   * `deleteProduct`: splices out the first record carrying `id`; a missing
   * id leaves the store as it was. The counter is never wound back.
   */
  function Delete(s: Store, id: int): (r: Deleted)
    ensures r.removed <==> HasId(s.products, id)
    ensures !r.removed ==> r.store == s
    ensures r.store.nextId == s.nextId
    ensures r.removed ==>
      exists i :: 0 <= i < |s.products| && s.products[i].id == id
        && (forall j :: 0 <= j < i ==> s.products[j].id != id)
        && r.store.products == s.products[..i] + s.products[i + 1..]
    ensures Valid(s) ==> Valid(r.store) && !HasId(r.store.products, id)
  {
    match FindIndex(s.products, id)
    case None => Deleted(s, false)
    case Some(i) =>
      var rest := s.products[..i] + s.products[i + 1..];
      SpliceKeepsValid(s, i);
      Deleted(Store(rest, s.nextId), true)
  }

  /** Splicing out the record at `i` keeps a valid store valid and removes its id. */
  lemma SpliceKeepsValid(s: Store, i: nat)
    requires i < |s.products|
    ensures var t := Store(s.products[..i] + s.products[i + 1..], s.nextId);
      Valid(s) ==> Valid(t) && !HasId(t.products, s.products[i].id)
  {
    var rest := s.products[..i] + s.products[i + 1..];
    assert forall j :: 0 <= j < |rest| ==> rest[j] == s.products[if j < i then j else j + 1];
  }

  /** A fresh store is empty, valid, and hands out FirstId first. */
  lemma EmptyStore(draft: NewProduct)
    ensures Valid(Empty) && All(Empty) == []
    ensures Add(Empty, draft).product.id == FirstId
    ensures Add(Add(Empty, draft).store, draft).product.id == FirstId + 1
  {
  }

  /** A record just added is what a lookup by its new id returns. */
  lemma AddThenGet(s: Store, draft: NewProduct)
    requires Valid(s)
    ensures var r := Add(s, draft); Get(r.store, r.product.id) == Some(r.product)
  {
    var r := Add(s, draft);
    assert r.store.products[|s.products|] == r.product;
  }

  /** After an update of a present id, a lookup returns the merged record. */
  lemma UpdateThenGet(s: Store, id: int, patch: ProductPatch)
    requires HasId(s.products, id)
    ensures var r := Update(s, id, patch); r.product.Some? && Get(r.store, id) == r.product
  {
    var r := Update(s, id, patch);
    var i :| 0 <= i < |s.products| && s.products[i].id == id
      && (forall j :: 0 <= j < i ==> s.products[j].id != id)
      && r.product.value == Merge(s.products[i], patch)
      && r.store.products == s.products[i := r.product.value];
    assert r.store.products[i].id == id;
    assert forall j :: 0 <= j < i ==> r.store.products[j].id != id;
  }

  /** A deleted id is gone: a lookup finds nothing and a second delete removes nothing. */
  lemma DeleteThenGetAndDeleteAgain(s: Store, id: int)
    requires Valid(s)
    ensures var r := Delete(s, id);
      && Get(r.store, id) == None
      && Delete(r.store, id) == Deleted(r.store, false)
  {
  }

  /** Adding several drafts one after another. */
  function AddAll(s: Store, drafts: seq<NewProduct>): Store
    decreases |drafts|
  {
    if |drafts| == 0 then s else AddAll(Add(s, drafts[0]).store, drafts[1..])
  }

  /**
   * Successive adds append their records in call order, with consecutive
   * ids starting at the counter's value, and leave earlier records alone.
   */
  lemma {:induction false} AddAllInOrder(s: Store, drafts: seq<NewProduct>)
    ensures var t := AddAll(s, drafts);
      && t.nextId == s.nextId + |drafts|
      && |All(t)| == |All(s)| + |drafts|
      && All(t)[..|All(s)|] == All(s)
      && forall k :: 0 <= k < |drafts| ==> All(t)[|All(s)| + k] == WithId(drafts[k], s.nextId + k)
    decreases |drafts|
  {
    if |drafts| > 0 {
      var s' := Add(s, drafts[0]).store;
      AddAllInOrder(s', drafts[1..]);
      var t := AddAll(s, drafts);
      assert t == AddAll(s', drafts[1..]);
      forall k | 0 <= k < |drafts|
        ensures All(t)[|All(s)| + k] == WithId(drafts[k], s.nextId + k)
      {
        if k > 0 {
          assert drafts[1..][k - 1] == drafts[k];
          assert All(t)[|All(s')| + (k - 1)] == WithId(drafts[k], s'.nextId + (k - 1));
        } else {
          assert All(t)[..|All(s')|] == All(s');
          assert All(t)[|All(s)|] == All(t)[..|All(s')|][|All(s)|];
        }
      }
      assert All(t)[..|All(s)|] == All(t)[..|All(s')|][..|All(s)|];
    }
  }

  /** A mutating call on the store. */
  datatype Op = AddOp(draft: NewProduct) | UpdateOp(id: int, patch: ProductPatch) | DeleteOp(id: int)

  /** The store after one call. */
  function Step(s: Store, op: Op): Store {
    match op
    case AddOp(d) => Add(s, d).store
    case UpdateOp(id, patch) => Update(s, id, patch).store
    case DeleteOp(id) => Delete(s, id).store
  }

  /** The store after a sequence of calls. */
  function Run(s: Store, ops: seq<Op>): Store
    decreases |ops|
  {
    if |ops| == 0 then s else Run(Step(s, ops[0]), ops[1..])
  }

  /** Every sequence of calls keeps the store valid and never winds `nextId` back. */
  lemma {:induction false} RunPreservesValid(s: Store, ops: seq<Op>)
    requires Valid(s)
    ensures Valid(Run(s, ops))
    ensures Run(s, ops).nextId >= s.nextId
    decreases |ops|
  {
    if |ops| > 0 {
      RunPreservesValid(Step(s, ops[0]), ops[1..]);
    }
  }

  /**
   * An id once handed out, whether or not its record has since been
   * deleted, is never handed out again.
   */
  lemma NeverReissued(s: Store, ops: seq<Op>, draft: NewProduct, id: int)
    requires Valid(s) && FirstId <= id < s.nextId
    ensures Add(Run(s, ops), draft).product.id > id
  {
    RunPreservesValid(s, ops);
  }
}

=== FILE: product_types.dfy ===
/**
 * The records exchanged by the catalog (src/lib/types/product.types.ts).
 * JavaScript numbers are modelled as `real`; strings as `seq<char>`.
 */
module ProductTypes {
  import opened Wrappers

  /** A catalog product. `id` is assigned by whoever stores it. */
  datatype Product = Product(
    id: int,
    title: string,
    description: string,
    category: string,
    price: real,
    rating: real,
    stock: real,
    brand: string,
    images: seq<string>)

  /** `Omit<Product, 'id'>`: a product that has not been given an id yet. */
  datatype NewProduct = NewProduct(
    title: string,
    description: string,
    category: string,
    price: real,
    rating: real,
    stock: real,
    brand: string,
    images: seq<string>)

  /** `{ ...draft, id }`: the draft's fields together with an id. */
  function WithId(draft: NewProduct, id: int): (p: Product)
    ensures p.id == id
    ensures WithoutId(p) == draft
  {
    Product(id, draft.title, draft.description, draft.category, draft.price,
            draft.rating, draft.stock, draft.brand, draft.images)
  }

  /** Every field of a product except its id. */
  function WithoutId(p: Product): NewProduct {
    NewProduct(p.title, p.description, p.category, p.price, p.rating, p.stock, p.brand, p.images)
  }

  /**
   * `Partial<Omit<Product, 'id'>>`: the fields an update to the local store
   * may carry. `None` means the field is absent from the update.
   */
  datatype ProductPatch = ProductPatch(
    title: Option<string>,
    description: Option<string>,
    category: Option<string>,
    price: Option<real>,
    rating: Option<real>,
    stock: Option<real>,
    brand: Option<string>,
    images: Option<seq<string>>)

  /**
   * `CreateProductDTO` as it arrives in a request body. The declared type
   * makes every field mandatory, but a JSON body can omit any of them,
   * which is why the create validator checks for their presence; so every
   * field is optional here.
   */
  datatype CreateProductDto = CreateProductDto(
    title: Option<string>,
    description: Option<string>,
    category: Option<string>,
    price: Option<real>,
    stock: Option<real>,
    brand: Option<string>,
    images: Option<seq<string>>)

  /** `UpdateProductDTO`: a partial update; it carries no id and no rating. */
  datatype UpdateProductDto = UpdateProductDto(
    title: Option<string>,
    description: Option<string>,
    category: Option<string>,
    price: Option<real>,
    stock: Option<real>,
    brand: Option<string>,
    images: Option<seq<string>>)
}

=== FILE: product_validator.dfy ===
/**
 * The request validators of src/lib/validators/productValidator.ts. Each
 * validator yields the ordered list of messages the source pushes. Internally
 * a message is an `Issue`, so contracts can speak about which check fired;
 * `Message` maps each issue to the exact text the source uses.
 */
module ProductValidator {
  import opened Wrappers
  import opened ProductTypes
  import opened JsString

  /** One failed check. */
  datatype Issue =
    | TitleRequired | TitleLength
    | DescriptionRequired | DescriptionLength
    | CategoryRequired | CategoryLength
    | PriceRequired | PricePositive
    | StockRequired | StockPositive | StockInteger
    | BrandRequired | BrandLength
    | ImagesRequired | ImagesNonEmpty
    | IdNotNumber | IdNotPositive

  function Message(i: Issue): string {
    match i
    case TitleRequired => "Title is required"
    case TitleLength => "Title must be between 3 and 60 characters long"
    case DescriptionRequired => "Description is required"
    case DescriptionLength => "Description must be less than 500 characters long"
    case CategoryRequired => "Category is required"
    case CategoryLength => "Category must be less than 60 characters long"
    case PriceRequired => "Price is required"
    case PricePositive => "Price must be greater than 0"
    case StockRequired => "Stock is required"
    case StockPositive => "Stock must be greater than 0"
    case StockInteger => "Stock must be an integer"
    case BrandRequired => "Brand is required"
    case BrandLength => "Brand must be less than 60 characters long"
    case ImagesRequired => "Images are required"
    case ImagesNonEmpty => "Images must be a non-empty array of strings"
    case IdNotNumber => "ID must be a valid number"
    case IdNotPositive => "ID must be greater than 0"
  }

  /** The payload field an issue is about, numbered in the order the validators check them. */
  function FieldRank(i: Issue): nat {
    match i
    case TitleRequired | TitleLength => 0
    case DescriptionRequired | DescriptionLength => 1
    case CategoryRequired | CategoryLength => 2
    case PriceRequired | PricePositive => 3
    case StockRequired | StockPositive | StockInteger => 4
    case BrandRequired | BrandLength => 5
    case ImagesRequired | ImagesNonEmpty => 6
    case IdNotNumber | IdNotPositive => 7
  }

  /** Issues listed strictly in field order: at most one per field, title first, images last. */
  ghost predicate InFieldOrder(issues: seq<Issue>) {
    forall i, j :: 0 <= i < j < |issues| ==> FieldRank(issues[i]) < FieldRank(issues[j])
  }

  /** The texts of a list of issues, in the same order. */
  function Messages(issues: seq<Issue>): (ms: seq<string>)
    ensures |ms| == |issues|
    ensures forall k :: 0 <= k < |issues| ==> ms[k] == Message(issues[k])
  {
    if |issues| == 0 then [] else [Message(issues[0])] + Messages(issues[1..])
  }

  /**
   * Reads a message back as the issue it reports, if it is one of the
   * validators' texts. It looks at the length first, which already tells
   * most texts apart.
   */
  function IssueOf(m: string): Option<Issue> {
    match |m|
    case 17 =>
      if m == "Title is required" then Some(TitleRequired)
      else if m == "Price is required" then Some(PriceRequired)
      else if m == "Stock is required" then Some(StockRequired)
      else if m == "Brand is required" then Some(BrandRequired)
      else None
    case 19 => if m == "Images are required" then Some(ImagesRequired) else None
    case 20 => if m == "Category is required" then Some(CategoryRequired) else None
    case 23 => if m == "Description is required" then Some(DescriptionRequired) else None
    case 24 => if m == "Stock must be an integer" then Some(StockInteger) else None
    case 25 =>
      if m == "ID must be a valid number" then Some(IdNotNumber)
      else if m == "ID must be greater than 0" then Some(IdNotPositive)
      else None
    case 28 =>
      if m == "Price must be greater than 0" then Some(PricePositive)
      else if m == "Stock must be greater than 0" then Some(StockPositive)
      else None
    case 42 => if m == "Brand must be less than 60 characters long" then Some(BrandLength) else None
    case 43 => if m == "Images must be a non-empty array of strings" then Some(ImagesNonEmpty) else None
    case 45 => if m == "Category must be less than 60 characters long" then Some(CategoryLength) else None
    case 46 => if m == "Title must be between 3 and 60 characters long" then Some(TitleLength) else None
    case 49 =>
      if m == "Description must be less than 500 characters long" then Some(DescriptionLength) else None
    case _ => None
  }

  /** Every issue's text reads back as that issue, so different issues have different texts. */
  lemma MessageRoundTrip(i: Issue)
    ensures IssueOf(Message(i)) == Some(i)
  {
    match i
    case TitleRequired | PriceRequired | StockRequired | BrandRequired =>
      RequiredRoundTrip(i);
    case IdNotNumber | IdNotPositive =>
      assert |Message(i)| == 25;
    case PricePositive | StockPositive =>
      assert |Message(i)| == 28;
    case _ =>
  }

  /** The four "is required" texts of the same length read back apart. */
  lemma RequiredRoundTrip(i: Issue)
    requires i.TitleRequired? || i.PriceRequired? || i.StockRequired? || i.BrandRequired?
    ensures IssueOf(Message(i)) == Some(i)
  {
    assert |Message(i)| == 17;
  }

  /** A list of messages determines the list of issues it was made from. */
  lemma MessagesIdentifyIssues(xs: seq<Issue>, ys: seq<Issue>)
    requires Messages(xs) == Messages(ys)
    ensures xs == ys
  {
    assert |xs| == |ys|;
    forall k | 0 <= k < |xs|
      ensures xs[k] == ys[k]
    {
      assert Messages(xs)[k] == Messages(ys)[k];
      MessageRoundTrip(xs[k]);
      MessageRoundTrip(ys[k]);
    }
  }

  // ---- validateCreateProduct ----

  /** JavaScript truthiness of an optional string: present and non-empty. */
  predicate Truthy(s: Option<string>) {
    s.Some? && |s.value| > 0
  }

  /** `Number.isInteger` on a finite number. */
  predicate IsInteger(x: real) {
    x.Floor as real == x
  }

  /**
   * Title: required when absent, empty or all white space (`trim() === ''`);
   * otherwise its raw, untrimmed length must lie in 3..60.
   */
  function CreateTitleIssue(title: Option<string>): (issue: Option<Issue>)
    ensures issue == Some(TitleRequired) <==> title.None? || Blank(title.value)
    ensures issue == Some(TitleLength) <==>
      title.Some? && !Blank(title.value) && !(3 <= |title.value| <= 60)
    ensures issue.None? <==> title.Some? && !Blank(title.value) && 3 <= |title.value| <= 60
  {
    if !Truthy(title) then Some(TitleRequired)
    else
      TrimEmptyIffBlank(title.value);
      if Trim(title.value) == "" then Some(TitleRequired)
      else if |title.value| < 3 || |title.value| > 60 then Some(TitleLength)
      else None
  }

  /** Description: required (absent or ""), then at most 500 characters. */
  function CreateDescriptionIssue(description: Option<string>): (issue: Option<Issue>)
    ensures issue == Some(DescriptionRequired) <==> !Truthy(description)
    ensures issue == Some(DescriptionLength) <==> Truthy(description) && |description.value| > 500
    ensures issue.None? <==> description.Some? && 0 < |description.value| <= 500
  {
    if !Truthy(description) then Some(DescriptionRequired)
    else if |description.value| > 500 then Some(DescriptionLength)
    else None
  }

  /** Category: required (absent or ""); no length cap on create. */
  function CreateCategoryIssue(category: Option<string>): (issue: Option<Issue>)
    ensures issue == Some(CategoryRequired) <==> !Truthy(category)
    ensures issue.None? <==> category.Some? && |category.value| > 0
  {
    if !Truthy(category) then Some(CategoryRequired) else None
  }

  /** Price: required, then strictly positive. */
  function CreatePriceIssue(price: Option<real>): (issue: Option<Issue>)
    ensures issue == Some(PriceRequired) <==> price.None?
    ensures issue == Some(PricePositive) <==> price.Some? && price.value <= 0.0
    ensures issue.None? <==> price.Some? && price.value > 0.0
  {
    if price.None? then Some(PriceRequired)
    else if price.value <= 0.0 then Some(PricePositive)
    else None
  }

  /** Stock: required, then strictly positive, then whole; so at most one of the three. */
  function CreateStockIssue(stock: Option<real>): (issue: Option<Issue>)
    ensures issue == Some(StockRequired) <==> stock.None?
    ensures issue == Some(StockPositive) <==> stock.Some? && stock.value <= 0.0
    ensures issue == Some(StockInteger) <==>
      stock.Some? && stock.value > 0.0 && !IsInteger(stock.value)
    ensures issue.None? <==> stock.Some? && stock.value > 0.0 && IsInteger(stock.value)
  {
    if stock.None? then Some(StockRequired)
    else if stock.value <= 0.0 then Some(StockPositive)
    else if !IsInteger(stock.value) then Some(StockInteger)
    else None
  }

  /** Brand: required (absent or ""), then at most 60 characters. */
  function CreateBrandIssue(brand: Option<string>): (issue: Option<Issue>)
    ensures issue == Some(BrandRequired) <==> !Truthy(brand)
    ensures issue == Some(BrandLength) <==> Truthy(brand) && |brand.value| > 60
    ensures issue.None? <==> brand.Some? && 0 < |brand.value| <= 60
  {
    if !Truthy(brand) then Some(BrandRequired)
    else if |brand.value| > 60 then Some(BrandLength)
    else None
  }

  /** Images: required, then at least one. */
  function CreateImagesIssue(images: Option<seq<string>>): (issue: Option<Issue>)
    ensures issue == Some(ImagesRequired) <==> images.None?
    ensures issue == Some(ImagesNonEmpty) <==> images.Some? && |images.value| == 0
    ensures issue.None? <==> images.Some? && |images.value| > 0
  {
    if images.None? then Some(ImagesRequired)
    else if |images.value| == 0 then Some(ImagesNonEmpty)
    else None
  }

  /**
   * What a well-formed create payload is: every field present, a title of
   * 3 to 60 characters that is not all white space, a non-empty description
   * of at most 500, a non-empty category, a positive price, a positive
   * whole stock, a non-empty brand of at most 60, and at least one image.
   */
  ghost predicate CreateAccepted(d: CreateProductDto) {
    && d.title.Some? && !Blank(d.title.value) && 3 <= |d.title.value| <= 60
    && d.description.Some? && 0 < |d.description.value| <= 500
    && d.category.Some? && |d.category.value| > 0
    && d.price.Some? && d.price.value > 0.0
    && d.stock.Some? && d.stock.value > 0.0 && IsInteger(d.stock.value)
    && d.brand.Some? && 0 < |d.brand.value| <= 60
    && d.images.Some? && |d.images.value| > 0
  }

  /** The seven checks of `validateCreateProduct`, one per field, in the order it runs them. */
  function CreateChecks(d: CreateProductDto): (checks: seq<Option<Issue>>)
    ensures |checks| == 7 && FieldIndexed(checks)
  {
    [ CreateTitleIssue(d.title),
      CreateDescriptionIssue(d.description),
      CreateCategoryIssue(d.category),
      CreatePriceIssue(d.price),
      CreateStockIssue(d.stock),
      CreateBrandIssue(d.brand),
      CreateImagesIssue(d.images) ]
  }

  /**
   * The issues `validateCreateProduct` reports: at most one per field, in
   * field order, each one exactly when its field's check fails, and none
   * exactly when the payload is acceptable.
   */
  function CreateIssues(d: CreateProductDto): (issues: seq<Issue>)
    ensures InFieldOrder(issues)
    ensures forall x :: x in issues <==> FieldRank(x) < 7 && CreateChecks(d)[FieldRank(x)] == Some(x)
    ensures issues == [] <==> CreateAccepted(d)
  {
    var checks := CreateChecks(d);
    CollectByField(checks);
    CreateAcceptedIffClean(d);
    Collect(checks)
  }

  /** A payload is acceptable exactly when none of the seven checks reports. */
  lemma CreateAcceptedIffClean(d: CreateProductDto)
    ensures CreateAccepted(d) <==> forall k :: 0 <= k < |CreateChecks(d)| ==> CreateChecks(d)[k].None?
  {
    var checks := CreateChecks(d);
    assert (forall k :: 0 <= k < |checks| ==> checks[k].None?) <==>
      (checks[0].None? && checks[1].None? && checks[2].None? && checks[3].None?
       && checks[4].None? && checks[5].None? && checks[6].None?);
  }

  /** `validateCreateProduct`: the messages, in order; empty exactly for an acceptable payload. */
  function ValidateCreateProduct(d: CreateProductDto): (errors: seq<string>)
    ensures |errors| <= 7
    ensures errors == [] <==> CreateAccepted(d)
  {
    var issues := CreateIssues(d);
    FieldOrderBound(issues);
    Messages(issues)
  }

  /**
   * The example of a rejected create payload: a two-letter title, price 0,
   * stock 1.5, an empty image list, and nothing else. Every field is reported, none
   * twice, in field order.
   */
  lemma CreateExampleRejected()
    ensures CreateIssues(CreateProductDto(Some("ab"), None, None, Some(0.0), Some(1.5), None, Some([])))
      == [TitleLength, DescriptionRequired, CategoryRequired, PricePositive,
          StockInteger, BrandRequired, ImagesNonEmpty]
  {
    var d := CreateProductDto(Some("ab"), None, None, Some(0.0), Some(1.5), None, Some([]));
    var reported := [TitleLength, DescriptionRequired, CategoryRequired, PricePositive,
                     StockInteger, BrandRequired, ImagesNonEmpty];
    var checks := seq(|reported|, k requires 0 <= k < |reported| => Some(reported[k]));
    ExampleChecks();
    assert CreateChecks(d) == checks;
    CollectAllReported(reported);
    assert CreateIssues(d) == Collect(checks);
  }

  lemma ExampleChecks()
    ensures CreateChecks(CreateProductDto(Some("ab"), None, None, Some(0.0), Some(1.5), None, Some([])))
      == [Some(TitleLength), Some(DescriptionRequired), Some(CategoryRequired),
          Some(PricePositive), Some(StockInteger), Some(BrandRequired), Some(ImagesNonEmpty)]
  {
    assert !Blank("ab") by { assert !IsJsSpace("ab"[0]); }
    assert !IsInteger(1.5) by { assert (1.5).Floor == 1; }
  }

  /** When every check reports, collecting gives back the reported issues in order. */
  lemma {:induction false} CollectAllReported(xs: seq<Issue>)
    ensures Collect(seq(|xs|, k requires 0 <= k < |xs| => Some(xs[k]))) == xs
  {
    if |xs| > 0 {
      var n := |xs| - 1;
      var checks := seq(|xs|, k requires 0 <= k < |xs| => Some(xs[k]));
      CollectAllReported(xs[..n]);
      assert checks[..n] == seq(n, k requires 0 <= k < n => Some(xs[..n][k]));
    }
  }

  // ---- validateUpdateProduct ----

  /** Title, when present: 3..60 characters. No white-space check on update. */
  function UpdateTitleIssue(title: Option<string>): (issue: Option<Issue>)
    ensures issue.None? <==> title.None? || 3 <= |title.value| <= 60
    ensures issue.Some? ==> issue.value == TitleLength
  {
    if title.Some? && (|title.value| < 3 || |title.value| > 60) then Some(TitleLength) else None
  }

  /** Description, when present: at most 500 characters ("" is fine on update). */
  function UpdateDescriptionIssue(description: Option<string>): (issue: Option<Issue>)
    ensures issue.None? <==> description.None? || |description.value| <= 500
    ensures issue.Some? ==> issue.value == DescriptionLength
  {
    if description.Some? && |description.value| > 500 then Some(DescriptionLength) else None
  }

  /** Category, when present: at most 60 characters, a cap create does not impose. */
  function UpdateCategoryIssue(category: Option<string>): (issue: Option<Issue>)
    ensures issue.None? <==> category.None? || |category.value| <= 60
    ensures issue.Some? ==> issue.value == CategoryLength
  {
    if category.Some? && |category.value| > 60 then Some(CategoryLength) else None
  }

  /** Price, when present: strictly positive. */
  function UpdatePriceIssue(price: Option<real>): (issue: Option<Issue>)
    ensures issue.None? <==> price.None? || price.value > 0.0
    ensures issue.Some? ==> issue.value == PricePositive
  {
    if price.Some? && price.value <= 0.0 then Some(PricePositive) else None
  }

  /** Stock, when present: strictly positive, then whole. */
  function UpdateStockIssue(stock: Option<real>): (issue: Option<Issue>)
    ensures issue == Some(StockPositive) <==> stock.Some? && stock.value <= 0.0
    ensures issue == Some(StockInteger) <==>
      stock.Some? && stock.value > 0.0 && !IsInteger(stock.value)
    ensures issue.None? <==> stock.None? || (stock.value > 0.0 && IsInteger(stock.value))
  {
    if stock.Some? then
      if stock.value <= 0.0 then Some(StockPositive)
      else if !IsInteger(stock.value) then Some(StockInteger)
      else None
    else None
  }

  /** Brand, when present: at most 60 characters. */
  function UpdateBrandIssue(brand: Option<string>): (issue: Option<Issue>)
    ensures issue.None? <==> brand.None? || |brand.value| <= 60
    ensures issue.Some? ==> issue.value == BrandLength
  {
    if brand.Some? && |brand.value| > 60 then Some(BrandLength) else None
  }

  /** Images, when present: at least one. */
  function UpdateImagesIssue(images: Option<seq<string>>): (issue: Option<Issue>)
    ensures issue.None? <==> images.None? || |images.value| > 0
    ensures issue.Some? ==> issue.value == ImagesNonEmpty
  {
    if images.Some? && |images.value| == 0 then Some(ImagesNonEmpty) else None
  }

  /** What an acceptable update is: every field that is present obeys its rule. */
  ghost predicate UpdateAccepted(d: UpdateProductDto) {
    && (d.title.Some? ==> 3 <= |d.title.value| <= 60)
    && (d.description.Some? ==> |d.description.value| <= 500)
    && (d.category.Some? ==> |d.category.value| <= 60)
    && (d.price.Some? ==> d.price.value > 0.0)
    && (d.stock.Some? ==> d.stock.value > 0.0 && IsInteger(d.stock.value))
    && (d.brand.Some? ==> |d.brand.value| <= 60)
    && (d.images.Some? ==> |d.images.value| > 0)
  }

  /** The seven checks of `validateUpdateProduct`, in the order it runs them. */
  function UpdateChecks(d: UpdateProductDto): (checks: seq<Option<Issue>>)
    ensures |checks| == 7 && FieldIndexed(checks)
  {
    [ UpdateTitleIssue(d.title),
      UpdateDescriptionIssue(d.description),
      UpdateCategoryIssue(d.category),
      UpdatePriceIssue(d.price),
      UpdateStockIssue(d.stock),
      UpdateBrandIssue(d.brand),
      UpdateImagesIssue(d.images) ]
  }

  /**
   * The issues `validateUpdateProduct` reports: at most one per field, in
   * field order, only about fields that are present, and none exactly when
   * the update is acceptable.
   */
  function UpdateIssues(d: UpdateProductDto): (issues: seq<Issue>)
    ensures InFieldOrder(issues)
    ensures forall x :: x in issues <==> FieldRank(x) < 7 && UpdateChecks(d)[FieldRank(x)] == Some(x)
    ensures issues == [] <==> UpdateAccepted(d)
  {
    var checks := UpdateChecks(d);
    CollectByField(checks);
    UpdateAcceptedIffClean(d);
    Collect(checks)
  }

  /** A payload is acceptable exactly when none of the seven checks reports. */
  lemma UpdateAcceptedIffClean(d: UpdateProductDto)
    ensures UpdateAccepted(d) <==> forall k :: 0 <= k < |UpdateChecks(d)| ==> UpdateChecks(d)[k].None?
  {
    var checks := UpdateChecks(d);
    assert (forall k :: 0 <= k < |checks| ==> checks[k].None?) <==>
      (checks[0].None? && checks[1].None? && checks[2].None? && checks[3].None?
       && checks[4].None? && checks[5].None? && checks[6].None?);
  }

  /** `validateUpdateProduct`: the messages, in order; empty exactly for an acceptable update. */
  function ValidateUpdateProduct(d: UpdateProductDto): (errors: seq<string>)
    ensures |errors| <= 7
    ensures errors == [] <==> UpdateAccepted(d)
  {
    var issues := UpdateIssues(d);
    FieldOrderBound(issues);
    Messages(issues)
  }

  /** An update that carries no field at all is always accepted. */
  lemma EmptyUpdateAccepted()
    ensures ValidateUpdateProduct(UpdateProductDto(None, None, None, None, None, None, None)) == []
  {
  }

  /** The create payload's fields, read as an update. */
  function AsUpdate(d: CreateProductDto): UpdateProductDto {
    UpdateProductDto(d.title, d.description, d.category, d.price, d.stock, d.brand, d.images)
  }

  /**
   * The two validators agree on every field but one: an acceptable create
   * payload, replayed as an update, is accepted exactly when its category
   * has at most 60 characters, a cap only the update validator imposes.
   */
  lemma CategoryCapOnlyOnUpdate(d: CreateProductDto)
    requires ValidateCreateProduct(d) == []
    ensures ValidateUpdateProduct(AsUpdate(d)) == [] <==> |d.category.value| <= 60
  {
  }

  // ---- validateProductId ----

  /**
   * `validateProductId`. `parseInt` stands for JavaScript's `parseInt`,
   * whose result is a whole number or NaN (`None`).
   */
  function ValidateProductId(id: string, parseInt: string -> Option<int>): (errors: seq<string>)
    ensures |errors| <= 1
    ensures errors == [] <==> parseInt(id).Some? && parseInt(id).value > 0
    ensures parseInt(id).None? ==> errors == [Message(IdNotNumber)]
    ensures parseInt(id).Some? && parseInt(id).value <= 0 ==> errors == [Message(IdNotPositive)]
  {
    match parseInt(id)
    case None => [Message(IdNotNumber)]
    case Some(n) => if n <= 0 then [Message(IdNotPositive)] else []
  }

  /** Per-field check results, where check k may only report an issue about field k. */
  ghost predicate FieldIndexed(checks: seq<Option<Issue>>) {
    forall k :: 0 <= k < |checks| && checks[k].Some? ==> FieldRank(checks[k].value) == k
  }

  /** The issues the checks reported, in check order. */
  function Collect(checks: seq<Option<Issue>>): seq<Issue>
    decreases |checks|
  {
    if |checks| == 0 then []
    else
      var last := checks[|checks| - 1];
      Collect(checks[..|checks| - 1]) + (if last.Some? then [last.value] else [])
  }

  /**
   * Collecting field-indexed checks gives a list in strict field order that
   * holds an issue exactly when the check for that issue's field reported it.
   */
  lemma CollectByField(checks: seq<Option<Issue>>)
    requires FieldIndexed(checks)
    ensures InFieldOrder(Collect(checks))
    ensures |Collect(checks)| <= |checks|
    ensures forall x :: x in Collect(checks) <==> FieldRank(x) < |checks| && checks[FieldRank(x)] == Some(x)
    ensures Collect(checks) == [] <==> forall k :: 0 <= k < |checks| ==> checks[k].None?
  {
    CollectOrdered(checks);
    CollectMembers(checks);
    CollectEmpty(checks);
  }

  /** The collected issues are in strict field order, each of a field that was checked. */
  lemma {:induction false} CollectOrdered(checks: seq<Option<Issue>>)
    requires FieldIndexed(checks)
    ensures InFieldOrder(Collect(checks))
    ensures forall k :: 0 <= k < |Collect(checks)| ==> FieldRank(Collect(checks)[k]) < |checks|
    decreases |checks|
  {
    if |checks| > 0 {
      var n := |checks| - 1;
      var init := checks[..n];
      assert FieldIndexed(init);
      CollectOrdered(init);
      var c := Collect(init);
      if checks[n].Some? {
        var r := c + [checks[n].value];
        assert Collect(checks) == r;
        assert FieldRank(r[|c|]) == n;
        forall i, j | 0 <= i < j < |r|
          ensures FieldRank(r[i]) < FieldRank(r[j])
        {
          assert r[i] == c[i];
          if j < |c| {
            assert r[j] == c[j];
          }
        }
      } else {
        assert Collect(checks) == c;
      }
    }
  }

  /** An issue is collected exactly when the check for its field reported it. */
  lemma {:induction false} CollectMembers(checks: seq<Option<Issue>>)
    requires FieldIndexed(checks)
    ensures forall x :: x in Collect(checks) <==> FieldRank(x) < |checks| && checks[FieldRank(x)] == Some(x)
    decreases |checks|
  {
    if |checks| > 0 {
      var n := |checks| - 1;
      var init := checks[..n];
      assert FieldIndexed(init);
      CollectMembers(init);
      var c := Collect(init);
      var tail := if checks[n].Some? then [checks[n].value] else [];
      assert Collect(checks) == c + tail;
      forall x
        ensures x in c + tail <==> FieldRank(x) < |checks| && checks[FieldRank(x)] == Some(x)
      {
        assert x in c + tail <==> x in c || x in tail;
        if FieldRank(x) < n {
          assert checks[FieldRank(x)] == init[FieldRank(x)];
        }
      }
    }
  }

  /** At most one issue per check, and none exactly when no check reported. */
  lemma {:induction false} CollectEmpty(checks: seq<Option<Issue>>)
    ensures |Collect(checks)| <= |checks|
    ensures Collect(checks) == [] <==> forall k :: 0 <= k < |checks| ==> checks[k].None?
    decreases |checks|
  {
    if |checks| > 0 {
      var n := |checks| - 1;
      var init := checks[..n];
      CollectEmpty(init);
      assert forall k :: 0 <= k < n ==> init[k] == checks[k];
    }
  }

  /** A list in strict field order has at most one issue per field. */
  lemma FieldOrderBound(issues: seq<Issue>)
    requires InFieldOrder(issues)
    requires forall k :: 0 <= k < |issues| ==> FieldRank(issues[k]) <= 6
    ensures |issues| <= 7
  {
    if |issues| > 7 {
      var k := 0;
      while k < 7
        invariant 0 <= k <= 7
        invariant FieldRank(issues[k]) >= k
      {
        k := k + 1;
      }
    }
  }
}

=== FILE: wrappers.dfy ===
/** Option and Result: the model's stand-ins for `null` returns and thrown errors. */
module Wrappers {

  /** `None` plays the part of JavaScript's `null`/`undefined`. */
  datatype Option<+T> = None | Some(value: T) {

    /** The wrapped value, or `default` when there is none. */
    function GetOr(default: T): T {
      match this
      case Some(v) => v
      case None => default
    }
  }

  /** A computation that either yields a value or fails the way a thrown `Error` would. */
  datatype Result<+T, +E> = Ok(value: T) | Err(error: E)
}
